=== FILE: README.md ===
# Syntax-version detection of python-minifier, in Dafny

python-minifier has to know which Python versions can parse a module before
it rewrites the module. `PythonSourceCompatibility` answers that question. It
walks the module's syntax tree depth first and keeps an interval of versions:

- a floor that starts at (2, 7);
- a ceiling that starts from the running interpreter's `sys.version_info`.

Every construct that first appeared in some version calls `set_minimum`. That
call raises the floor to the construct's version, and raises the ceiling too
if it would fall below. A few constructs prove one exact version. For those,
the handler raises the checker's `Version` exception: through `set_version`
for `Repr` and the type parameters, and directly in the f-string and literal
handlers. The walk stops, and the answer is that version twice:

- a Python 2 backquote conversion (`Repr`) gives 2.7;
- a type parameter (`TypeVar`, `TypeVarTuple`, `ParamSpec`) gives 3.12;
- f-strings nested deeper than the pre-3.12 grammar allows give 3.12.

The f-string rule uses a nesting counter. `JoinedStr` increments the counter
on entry and decrements it on exit. A plain or bytes literal pins 3.12 when it
sits inside four open f-strings. `FormattedValue` never visits its format
specifier.

The project has five files:

- `versions.dfy`: versions as pairs with Python's tuple order.
- `syntax.dfy`: the tree.
  - Every class that a generic visit walks is `Node(kind, children)`, with the
    node-valued fields in declaration order.
  - Five classes have constructors of their own. The handlers of
    `FormattedValue`, `Str`, `Bytes` and `Arg` choose differently what to
    visit. `JoinedStr` visits every field, but keeps the nesting counter.
- `compat.dfy`: the checker.
  - The rule table, defined once: `Floors`, the floors each handler raises,
    and `ExactVersion`, the versions each handler pins.
  - The walk (`Visit`/`VisitAll`). Where a handler raises `Version`, the walk
    returns a `Pinned` outcome instead, which is passed straight up.
  - `Detect`, which is `__call__`, and `FindSyntaxVersions`.
- `events.dfy`: an independent second description of the check.
  - The walk is flattened into the list of rule firings it meets in pre-order
    (`Trace`), and that list is folded (`Fold`).
  - `VisitIsFold` proves the two descriptions agree.
  - The closed forms follow from it: the floor is the greatest floor raised;
    the answer after a pin is the first pin.
- `properties.dfy`: the behaviour the checker promises, stated on whole
  modules:
  - the answer for plain code;
  - pin precedence;
  - the f-string nesting boundary;
  - skipped fields;
  - one lemma per rule of the table, checked against an independently written
    `RequiredFloor`.

The checker's functions are pure, so running the check twice on the same tree
gives the same answer by construction.

Two consequences of the code are worth stating on their own:

- Four nested f-strings around a plain string are exactly 3.12, not 3.6. The
  string is visited with the counter at 4, and `4 + 1 > 4` holds
  (compat.py:70-72). `Properties.DetectTowerAroundStr` proves that this
  boundary sits at four f-strings.
- A backquote conversion reached before a type parameter pins 2.7. So
  `Properties.DetectTypeParam` assumes that no `Repr` is reached.

## Model

| member | source | states |
|---|---|---|
| Compat.SetMinimum | src/python_minifier/compat.py:28-33 | The floor becomes the larger of itself and v, and the ceiling the larger of itself and v. Neither bound goes down, and a non-empty interval stays non-empty. |
| Compat.SetMinimumIdempotentAndCommutative | src/python_minifier/compat.py:28-33 | Raising a floor twice is raising it once. Two floors raised in either order give the same state. |
| Compat.RaiseAll | src/python_minifier/compat.py:99-112 | A handler's successive `set_minimum` calls leave the floor at the greatest of the old floor and the raised versions, and the ceiling at the greatest of the old ceiling and those versions. The nesting counter is unchanged. |
| Compat.Visit | src/python_minifier/compat.py:49-178 | A visit that does not pin restores the f-string nesting counter. The only versions a visit can pin are 2.7 and 3.12. |
| Compat.VisitGrows | src/python_minifier/compat.py:49-178 | A visit that does not pin never lowers the floor or the ceiling, and never empties a non-empty interval. |
| Compat.Detect | src/python_minifier/compat.py:38-46 | The assertion fails exactly when the root is not a Module. Otherwise the floor is at least 2.7. The answer is a non-empty interval when the initial ceiling is at least 2.7. An unpinned answer's ceiling is never below the initial ceiling. |
| Compat.FindSyntaxVersions | src/python_minifier/compat.py:183-184 | A fresh checker is applied to the module, with the ceiling (minor, micro) taken from `sys.version_info` as the constructor reads it. On any interpreter with minor version 3 or above, the answer is a non-empty interval. An unpinned ceiling is at least (minor, micro). |
| Events.VisitIsFold | src/python_minifier/compat.py:38-46 | The walk and the fold of its pre-order list of rule firings give the same outcome, for every tree and state. |
| Events.FoldUnpinned | src/python_minifier/compat.py:28-33 | Without a pin, folding the firings gives the greatest raised floor as the floor and the greatest of the ceiling and the raised floors as the ceiling. |
| Events.FoldFirstPin | src/python_minifier/compat.py:35-36 | The fold returns the version of the first pin, whatever comes before it or after it. |
| Properties.DetectUnpinned | src/python_minifier/compat.py:41-44 | With no pin in the walk, the answer is the greatest of (2, 7) and every raised floor, paired with the greatest of the initial ceiling and those floors. |
| Properties.DetectPinned | src/python_minifier/compat.py:45-46 | When the walk meets an exact version, the answer is that version twice. |
| Properties.DetectPlain | src/python_minifier/compat.py:22-26 | A module with no version-specific syntax gets ((2, 7), initial ceiling), even when it holds string or bytes literals (a docstring, say) outside any f-string. |
| Properties.NoReprPinsOnly312 | src/python_minifier/compat.py:154-156 | If the walk reaches no backquote conversion, every pin it can meet is 3.12. |
| Properties.TypeParamPins | src/python_minifier/compat.py:167-178 | A reachable type parameter always puts a pin into the walk's firings. |
| Properties.DetectTypeParam | src/python_minifier/compat.py:167-178 | A module that reaches a type parameter and no backquote conversion is exactly 3.12, whatever floors it raises. |
| Properties.DetectLoneRepr | src/python_minifier/compat.py:154-156 | A module whose only statement is a backquote conversion is exactly 2.7, whatever is inside it. |
| Properties.TowerVisit | src/python_minifier/compat.py:49-55 | k nested f-strings entered at depth d pin 3.12 when d + k exceeds 4. Otherwise the innermost parts are visited at depth d + k with the floor at least 3.6, and the counter returns to d. |
| Properties.DetectTowerOfFive | src/python_minifier/compat.py:51-53 | Five or more nested f-strings are exactly 3.12, whatever they contain. |
| Properties.DetectTowerAroundStr | src/python_minifier/compat.py:70-72 | A tower of k f-strings around a plain string is exactly 3.12 if and only if k is at least 4. Otherwise it is (3.6, larger of ceiling and 3.6). |
| Properties.DetectShallowTower | src/python_minifier/compat.py:49-55 | One to four nested f-strings around plain parts give (3.6, larger of ceiling and 3.6). |
| Properties.DetectIgnoresUnvisited | src/python_minifier/compat.py:57-68 | Two trees that differ only in format specifiers, or in what a parameter annotation contains, get the same answer. |
| Properties.ArgumentsMeetRequiredFloor | src/python_minifier/compat.py:99-112 | In any state whose floor and ceiling are at least 2.7, a parameter list acts as one `set_minimum`: of 3.8 with positional-only parameters, else of 3.0 with keyword-only parameters or an old-style vararg/kwarg annotation, else of 2.7, which changes nothing. |
| Properties.FloorsMeetRequiredFloor | src/python_minifier/compat.py:80-165 | In any state whose floor and ceiling are at least 2.7, every generic handler of the rule table acts as one `set_minimum` of the version in the independently written table `RequiredFloor`. |
| Properties.DetectSingleNode | src/python_minifier/compat.py:80-165 | With an initial ceiling of at least 2.7, a module holding one node of a generic kind over plain children gets (required floor, larger of ceiling and that floor). |
| Properties.LiteralRule | src/python_minifier/compat.py:70-76 | A plain or bytes literal pins if and only if four f-strings are open. The pin is 3.12. Otherwise the state is unchanged. |
| Properties.JoinedStrRule | src/python_minifier/compat.py:49-55 | An f-string opened inside four others is exactly 3.12. Otherwise, if it does not pin, the floor is at least 3.6 and the counter is restored. |
| Properties.ArgRule | src/python_minifier/compat.py:114-116 | An annotated parameter raises the floor to 3.0, and nothing inside the annotation is visited. An unannotated one changes nothing. |
| Properties.DetectAsyncMatch | src/python_minifier/compat.py:129-150 | An async function whose body is a `match` statement needs 3.10, the later of its two floors. |

## Left out

- Handler dispatch. `util.NodeVisitor` is not part of this model. The model
  assumes that it calls `visit_<ClassName>` when such a method exists, and
  otherwise visits every node-valued field in order. It also assumes that
  string and bytes literals reach `visit_Str`/`visit_Bytes`. Which parser
  versions produce which classes is not modelled.
- The `Nonlocal` kind. By the name rule above, `visit_nonlocal`
  (compat.py:122-124) is never called, because the class is `Nonlocal` and
  the names differ in case. The model nevertheless gives `Nonlocal` the 3.0
  floor: the kind stands for whatever node `visit_nonlocal` would be called
  on. The `Nonlocal` entries of `Floors` and `RequiredFloor`, and
  `DetectSingleNode` applied to `Nonlocal`, hold only under that assumption.
  Under plain name dispatch, a `nonlocal` statement behaves like `Other`.
- The `ast` module: parsing, field enumeration and `ast.iter_fields`. A node
  carries its node-valued fields as a list. Scalar fields other than the
  handler flags are dropped.
- `sys.version_info` is a parameter (`VersionInfo`). The constructor's reading
  of entries 1 and 2 as the ceiling is kept as written.
- The exception mechanism. Where a handler raises `Version`, directly or
  through `set_version`, the model returns a `Pinned` outcome passed up
  unchanged. This gives the same observable result, since nothing between the
  raise and `__call__` catches it.
- Running under `python -O`, which would skip the assertion on the root. The
  model always checks it, and answers `AssertionFailed` for a non-Module root.
- The checker object's mutable fields. `State` is passed and returned
  instead. A checker reused after a pinned walk would keep a stale nesting
  counter; `find_syntax_versions` always builds a fresh one.
- Properties.DetectTypeParam: it does not state "3.12 whatever else is
  present", because that does not hold when a backquote conversion is reached
  first (see above).
- Properties.FloorsMeetRequiredFloor and Properties.ArgumentsMeetRequiredFloor:
  they assume a floor and ceiling of at least 2.7. With a lower ceiling, a
  kind that raises nothing leaves the ceiling below 2.7, which is not what
  one `set_minimum` of 2.7 would do. `find_syntax_versions` produces such a
  ceiling only on an interpreter whose (minor, micro) is below (2, 7).
- Properties.DetectSingleNode: it assumes an initial ceiling of at least 2.7,
  for the same reason. With a lower ceiling, a module of kinds that raise
  nothing keeps that ceiling, so the answer is ((2, 7), ceiling), not
  ((2, 7), (2, 7)).

=== FILE: compat.dfy ===
/** The compatibility check itself: a depth-first walk over a module's syntax
    tree that accumulates the interval of Python versions able to parse it, or
    stops at the first construct that proves one exact version.

    `PythonSourceCompatibility` raises an exception to stop the walk; here
    every visit returns an `Outcome`, and a `Pinned` outcome is passed
    straight up without visiting anything else. */
module Compat {
  import opened Versions
  import opened Syntax

  const V2_7 := Version(2, 7)
  const V3_0 := Version(3, 0)
  const V3_3 := Version(3, 3)
  const V3_5 := Version(3, 5)
  const V3_6 := Version(3, 6)
  const V3_8 := Version(3, 8)
  const V3_10 := Version(3, 10)
  const V3_11 := Version(3, 11)
  const V3_12 := Version(3, 12)

  /** Deepest f-string nesting the pre-3.12 grammar accepts (one level per
      kind of quote). */
  const MaxFStringNesting: nat := 4

  /** The checker's mutable fields: the interval so far and the number of
      f-strings currently being visited. */
  datatype State = State(min: Version, max: Version, depth: nat)

  /** Either the walk goes on with a new state, or an exact version was found. */
  datatype Outcome = Continue(state: State) | Pinned(version: Version)

  /** Result of a whole check: the assertion on the root failed, or the pair
      `(min, max)` was returned. */
  datatype Detection = AssertionFailed | Found(low: Version, high: Version)

  /** `sys.version_info` of the interpreter running the check. */
  datatype VersionInfo = VersionInfo(major: nat, minor: nat, micro: nat)

  /** The state a fresh checker starts in. */
  function Initial(ceiling: Version): (st: State) {
    State(V2_7, ceiling, 0)
  }

  /** Neither bound went down, and a non-empty interval stayed non-empty. */
  predicate Grows(before: State, after: State) {
    && Le(before.min, after.min)
    && Le(before.max, after.max)
    && (Le(before.min, before.max) ==> Le(after.min, after.max))
  }

  /** The set of versions listed in `vs`. */
  function Elems(vs: seq<Version>): (s: set<Version>) {
    set i | 0 <= i < |vs| :: vs[i]
  }

  /** `set_minimum`: the floor becomes the larger of itself and `v`, and so
      does the ceiling, so raising the floor never leaves the interval empty. */
  function SetMinimum(st: State, v: Version): (r: State)
    ensures r.min == Max(st.min, v) && r.max == Max(st.max, v)
    ensures r.depth == st.depth
    ensures Grows(st, r)
  {
    var min := if Lt(st.min, v) then v else st.min;
    var max := if Lt(st.max, v) then v else st.max;
    State(min, max, st.depth)
  }

  /** Raising the same floor twice is raising it once, and two floors can be
      raised in either order: only the greatest floor matters. */
  lemma SetMinimumIdempotentAndCommutative(st: State, a: Version, b: Version)
    ensures SetMinimum(SetMinimum(st, a), a) == SetMinimum(st, a)
    ensures SetMinimum(SetMinimum(st, a), b) == SetMinimum(SetMinimum(st, b), a)
  {
  }

  /** `set_minimum` called once for each version in `vs`, in order: the floor
      ends as the greatest of the old floor and `vs`, the ceiling as the
      greatest of the old ceiling and `vs`. */
  function RaiseAll(st: State, vs: seq<Version>): (r: State)
    ensures r.depth == st.depth
    ensures Grows(st, r)
    ensures IsGreatest(r.min, {st.min} + Elems(vs))
    ensures IsGreatest(r.max, {st.max} + Elems(vs))
    decreases |vs|
  {
    if vs == [] then st
    else
      var r := RaiseAll(SetMinimum(st, vs[0]), vs[1..]);
      assert Elems(vs) == {vs[0]} + Elems(vs[1..]) by {
        forall v | v in Elems(vs) ensures v in {vs[0]} + Elems(vs[1..]) {
          var i :| 0 <= i < |vs| && vs[i] == v;
          if i > 0 { assert vs[1..][i - 1] == v; }
        }
        forall v | v in Elems(vs[1..]) ensures v in Elems(vs) {
          var i :| 0 <= i < |vs[1..]| && vs[1..][i] == v;
          assert vs[i + 1] == v;
        }
      }
      r
  }

  /** The rule table: the floors a generic handler raises before it visits
      the node's fields, in the order it raises them. Kinds without a handler
      raise nothing. */
  function Floors(kind: Kind): (vs: seq<Version>) {
    match kind
    case NamedExpr => [V3_8]
    case MatMult => [V3_5]
    case AnnAssign => [V3_6]
    case Arguments(posOnly, kwOnly, varargAnn, kwargAnn) =>
      (if posOnly then [V3_8] else [])
      + (if kwOnly then [V3_0] else [])
      + (if varargAnn then [V3_0] else [])
      + (if kwargAnn then [V3_0] else [])
    case YieldFrom => [V3_3]
    case Nonlocal => [V3_0]
    case AsyncFunctionDef => [V3_5]
    case Await => [V3_5]
    case AsyncFor => [V3_5]
    case AsyncWith => [V3_5]
    case Match => [V3_10]
    case Comprehension(isAsync) => if isAsync then [V3_6] else []
    case TryStar => [V3_11]
    case _ => []
  }

  /** The rule table's exact versions: the handlers that call `set_version`
      before doing anything else. */
  function ExactVersion(kind: Kind): (v: Option<Version>) {
    match kind
    case Repr => Some(V2_7)
    case TypeVar => Some(V3_12)
    case TypeVarTuple => Some(V3_12)
    case ParamSpec => Some(V3_12)
    case _ => None
  }

  /** Dispatch of one node to its handler. */
  function Visit(n: Node, st: State): (r: Outcome)
    ensures r.Continue? ==> r.state.depth == st.depth
    ensures r.Pinned? ==> r.version == V2_7 || r.version == V3_12
    decreases n
  {
    match n
    case Node(kind, children) =>
      if ExactVersion(kind).Some? then Pinned(ExactVersion(kind).value)
      else VisitAll(children, RaiseAll(st, Floors(kind)))
    case JoinedStr(values) =>
      var entered := SetMinimum(st, V3_6).(depth := st.depth + 1);
      if entered.depth > MaxFStringNesting then Pinned(V3_12)
      else
        (match VisitAll(values, entered)
         case Pinned(v) => Pinned(v)
         case Continue(s) => Continue(s.(depth := s.depth - 1)))
    case FormattedValue(value, _, _) => Visit(value, st)
    case Str => if st.depth + 1 > MaxFStringNesting then Pinned(V3_12) else Continue(st)
    case Bytes => if st.depth + 1 > MaxFStringNesting then Pinned(V3_12) else Continue(st)
    case Arg(annotation) => Continue(if annotation.Some? then SetMinimum(st, V3_0) else st)
  }

  /** Visits the nodes in order, threading the state, and stops at the first
      exact version. */
  function VisitAll(ns: seq<Node>, st: State): (r: Outcome)
    ensures r.Continue? ==> r.state.depth == st.depth
    ensures r.Pinned? ==> r.version == V2_7 || r.version == V3_12
    decreases ns
  {
    if ns == [] then Continue(st)
    else
      match Visit(ns[0], st)
      case Pinned(v) => Pinned(v)
      case Continue(s) => VisitAll(ns[1..], s)
  }

  /** A visit that does not pin never lowers a bound and never empties the
      interval. */
  lemma {:induction false} VisitGrows(n: Node, st: State)
    ensures Visit(n, st).Continue? ==> Grows(st, Visit(n, st).state)
    decreases n
  {
    match n
    case Node(kind, children) =>
      if ExactVersion(kind).None? {
        VisitAllGrows(children, RaiseAll(st, Floors(kind)));
      }
    case JoinedStr(values) =>
      if st.depth + 1 <= MaxFStringNesting {
        VisitAllGrows(values, SetMinimum(st, V3_6).(depth := st.depth + 1));
      }
    case FormattedValue(value, _, _) => VisitGrows(value, st);
    case Str =>
    case Bytes =>
    case Arg(_) =>
  }

  /** `VisitGrows` for a sequence of siblings. */
  lemma {:induction false} VisitAllGrows(ns: seq<Node>, st: State)
    ensures VisitAll(ns, st).Continue? ==> Grows(st, VisitAll(ns, st).state)
    decreases ns
  {
    if ns != [] {
      VisitGrows(ns[0], st);
      if Visit(ns[0], st).Continue? {
        VisitAllGrows(ns[1..], Visit(ns[0], st).state);
      }
    }
  }

  /** `PythonSourceCompatibility()(module)` with the given initial ceiling:
      an exact version `v` is reported as `(v, v)`. */
  function Detect(root: Node, ceiling: Version): (r: Detection)
    ensures r.AssertionFailed? <==> !IsModule(root)
    ensures r.Found? ==> Le(V2_7, r.low)
    ensures r.Found? && Le(V2_7, ceiling) ==> Le(r.low, r.high)
    ensures r.Found? ==> r.low == r.high || Le(ceiling, r.high)
  {
    if !IsModule(root) then AssertionFailed
    else
      VisitGrows(root, Initial(ceiling));
      Report(Visit(root, Initial(ceiling)))
  }

  /** The pair `__call__` returns once the walk is over. */
  function Report(o: Outcome): (r: Detection) {
    match o
    case Pinned(v) => Found(v, v)
    case Continue(s) => Found(s.min, s.max)
  }

  /** The initial ceiling the checker reads from `sys.version_info`: entries 1
      and 2, that is (minor, micro). */
  function HostCeiling(info: VersionInfo): (ceiling: Version) {
    Version(info.minor, info.micro)
  }

  /** `find_syntax_versions`. On any interpreter from 3.3 on the result is a
      non-empty interval, and an unpinned result never falls below
      (minor, micro) of the running interpreter. */
  function FindSyntaxVersions(root: Node, info: VersionInfo): (r: Detection)
    ensures r.AssertionFailed? <==> !IsModule(root)
    ensures r.Found? && info.minor >= 3 ==> Le(r.low, r.high)
    ensures r.Found? ==> r.low == r.high || Le(Version(info.minor, info.micro), r.high)
  {
    Detect(root, HostCeiling(info))
  }
}

=== FILE: events.dfy ===
/** A second description of the compatibility check, used to state what it
    computes. The walk is flattened into the list of rule firings it meets in
    pre-order (`Trace`), and the interval is computed from that list alone
    (`Fold`). `VisitIsFold` shows the two descriptions agree; `FoldUnpinned`
    and `FoldFirstPin` then give the result in closed form. */
module Events {
  import opened Versions
  import opened Syntax
  import opened Compat

  /** One rule firing: a floor raised, or an exact version found. */
  datatype Event = Raise(floor: Version) | Pin(exact: Version)

  /** `Raise(v)` for each `v` in `vs`, in order. */
  function Raises(vs: seq<Version>): (evs: seq<Event>)
    ensures |evs| == |vs|
    ensures forall i :: 0 <= i < |vs| ==> evs[i] == Raise(vs[i])
  {
    seq(|vs|, i requires 0 <= i < |vs| => Raise(vs[i]))
  }

  /** The events a node's own handler fires, at f-string nesting `depth`,
      before the walk goes below it. */
  function Own(n: Node, depth: nat): (evs: seq<Event>) {
    match n
    case Node(kind, _) =>
      if ExactVersion(kind).Some? then [Pin(ExactVersion(kind).value)] else Raises(Floors(kind))
    case JoinedStr(_) =>
      [Raise(V3_6)] + (if depth + 1 > MaxFStringNesting then [Pin(V3_12)] else [])
    case FormattedValue(_, _, _) => []
    case Str => if depth + 1 > MaxFStringNesting then [Pin(V3_12)] else []
    case Bytes => if depth + 1 > MaxFStringNesting then [Pin(V3_12)] else []
    case Arg(annotation) => if annotation.Some? then [Raise(V3_0)] else []
  }

  /** Every event of the walk over `n` at nesting `depth`, in pre-order:
      the node's own events, then those of the children the walk visits,
      one f-string level deeper below a `JoinedStr`. Events that follow a
      `Pin` are listed too; they never matter. */
  function Trace(n: Node, depth: nat): (evs: seq<Event>)
    decreases n
  {
    Own(n, depth) +
      match n
      case Node(_, children) => TraceAll(children, depth)
      case JoinedStr(values) => TraceAll(values, depth + 1)
      case FormattedValue(value, _, _) => Trace(value, depth)
      case _ => []
  }

  function TraceAll(ns: seq<Node>, depth: nat): (evs: seq<Event>)
    decreases ns
  {
    if ns == [] then [] else Trace(ns[0], depth) + TraceAll(ns[1..], depth)
  }

  /** Applies the events in order: a `Raise` is `set_minimum`, the first `Pin`
      ends everything. */
  function Fold(evs: seq<Event>, st: State): (r: Outcome)
    ensures r.Continue? ==> r.state.depth == st.depth
    decreases |evs|
  {
    if evs == [] then Continue(st)
    else
      match evs[0]
      case Pin(v) => Pinned(v)
      case Raise(v) => Fold(evs[1..], SetMinimum(st, v))
  }

  /** Continues with the rest of the events unless already pinned. */
  function Then(o: Outcome, evs: seq<Event>): (r: Outcome) {
    match o
    case Pinned(_) => o
    case Continue(s) => Fold(evs, s)
  }

  /** The same outcome with the nesting counter replaced. */
  function WithDepth(o: Outcome, depth: nat): (r: Outcome) {
    match o
    case Pinned(_) => o
    case Continue(s) => Continue(s.(depth := depth))
  }

  /** No event in the list is a `Pin`. */
  ghost predicate NoPin(evs: seq<Event>) {
    forall i :: 0 <= i < |evs| ==> evs[i].Raise?
  }

  /** `evs[i]` is the first `Pin` of the list. */
  ghost predicate FirstPinAt(evs: seq<Event>, i: nat) {
    i < |evs| && evs[i].Pin? && forall j :: 0 <= j < i ==> evs[j].Raise?
  }

  /** Every floor raised in the list. */
  function Raised(evs: seq<Event>): (floors: set<Version>) {
    set i | 0 <= i < |evs| && evs[i].Raise? :: evs[i].floor
  }

  /** Folding a concatenation folds the first part, then the second part
      from where the first stopped. */
  lemma {:induction false} FoldAppend(a: seq<Event>, b: seq<Event>, st: State)
    ensures Fold(a + b, st) == Then(Fold(a, st), b)
    decreases |a|
  {
    if a == [] {
      assert a + b == b;
    } else {
      assert (a + b)[0] == a[0];
      assert (a + b)[1..] == a[1..] + b;
      if a[0].Raise? {
        FoldAppend(a[1..], b, SetMinimum(st, a[0].floor));
      }
    }
  }

  /** Events never read the nesting counter: starting from another depth
      only changes the depth of the outcome. */
  lemma {:induction false} FoldIgnoresDepth(evs: seq<Event>, st: State, depth: nat)
    ensures Fold(evs, st.(depth := depth)) == WithDepth(Fold(evs, st), depth)
    decreases |evs|
  {
    if evs != [] && evs[0].Raise? {
      assert SetMinimum(st.(depth := depth), evs[0].floor)
          == SetMinimum(st, evs[0].floor).(depth := depth);
      FoldIgnoresDepth(evs[1..], SetMinimum(st, evs[0].floor), depth);
    }
  }

  /** Folding a list of raises is `RaiseAll`. */
  lemma {:induction false} FoldRaises(vs: seq<Version>, st: State)
    ensures Fold(Raises(vs), st) == Continue(RaiseAll(st, vs))
    decreases |vs|
  {
    if vs != [] {
      assert Raises(vs)[1..] == Raises(vs[1..]);
      FoldRaises(vs[1..], SetMinimum(st, vs[0]));
    }
  }

  /** The walk and the fold of its trace agree on every node and state. */
  lemma {:induction false} VisitIsFold(n: Node, st: State)
    ensures Visit(n, st) == Fold(Trace(n, st.depth), st)
    decreases n
  {
    var d := st.depth;
    match n
    case Node(kind, children) =>
      if ExactVersion(kind).Some? {
        assert Trace(n, d)[0] == Pin(ExactVersion(kind).value);
      } else {
        var raised := RaiseAll(st, Floors(kind));
        FoldAppend(Raises(Floors(kind)), TraceAll(children, d), st);
        FoldRaises(Floors(kind), st);
        VisitAllIsFold(children, raised);
      }
    case JoinedStr(values) =>
      var s1 := SetMinimum(st, V3_6);
      var entered := s1.(depth := d + 1);
      assert Trace(n, d)[0] == Raise(V3_6);
      if d + 1 > MaxFStringNesting {
        assert Trace(n, d)[1..][0] == Pin(V3_12);
      } else {
        assert Trace(n, d)[1..] == TraceAll(values, d + 1);
        VisitAllIsFold(values, entered);
        FoldIgnoresDepth(TraceAll(values, d + 1), s1, d + 1);
      }
    case FormattedValue(value, _, _) =>
      assert Trace(n, d) == Trace(value, d);
      VisitIsFold(value, st);
    case Str =>
      assert Trace(n, d) == Own(n, d);
    case Bytes =>
      assert Trace(n, d) == Own(n, d);
    case Arg(annotation) =>
      assert Trace(n, d) == Own(n, d);
  }

  /** `VisitIsFold` for a sequence of siblings. */
  lemma {:induction false} VisitAllIsFold(ns: seq<Node>, st: State)
    ensures VisitAll(ns, st) == Fold(TraceAll(ns, st.depth), st)
    decreases ns
  {
    if ns != [] {
      FoldAppend(Trace(ns[0], st.depth), TraceAll(ns[1..], st.depth), st);
      VisitIsFold(ns[0], st);
      if Visit(ns[0], st).Continue? {
        VisitAllIsFold(ns[1..], Visit(ns[0], st).state);
      }
    }
  }

  /** Without a `Pin`, the fold ends with the floor at the greatest of the
      starting floor and every raised floor, and the ceiling at the greatest
      of the starting ceiling and every raised floor. */
  lemma FoldUnpinned(evs: seq<Event>, st: State)
    requires NoPin(evs)
    ensures Fold(evs, st).Continue?
    ensures IsGreatest(Fold(evs, st).state.min, {st.min} + Raised(evs))
    ensures IsGreatest(Fold(evs, st).state.max, {st.max} + Raised(evs))
  {
    var vs := seq(|evs|, i requires 0 <= i < |evs| => evs[i].floor);
    assert Raises(vs) == evs;
    assert Elems(vs) == Raised(evs) by {
      forall v | v in Raised(evs) ensures v in Elems(vs) {
        var i :| 0 <= i < |evs| && evs[i].Raise? && evs[i].floor == v;
        assert vs[i] == v;
      }
    }
    FoldRaises(vs, st);
  }

  /** The fold stops at the first `Pin` and returns its version. */
  lemma {:induction false} FoldFirstPin(evs: seq<Event>, st: State, i: nat)
    requires FirstPinAt(evs, i)
    ensures Fold(evs, st) == Pinned(evs[i].exact)
    decreases i
  {
    if i > 0 {
      assert FirstPinAt(evs[1..], i - 1) by {
        forall j | 0 <= j < i - 1 ensures evs[1..][j].Raise? {
          assert evs[1..][j] == evs[j + 1];
        }
      }
      FoldFirstPin(evs[1..], SetMinimum(st, evs[0].floor), i - 1);
    }
  }

  /** A list with a `Pin` in it has a first one. */
  lemma {:induction false} FirstPinExists(evs: seq<Event>)
    requires !NoPin(evs)
    ensures exists i: nat :: FirstPinAt(evs, i)
    decreases |evs|
  {
    if evs[0].Pin? {
      assert FirstPinAt(evs, 0);
    } else {
      assert !NoPin(evs[1..]) by {
        var k :| 0 <= k < |evs| && !evs[k].Raise?;
        assert evs[1..][k - 1] == evs[k];
      }
      FirstPinExists(evs[1..]);
      var i: nat :| FirstPinAt(evs[1..], i);
      assert FirstPinAt(evs, i + 1) by {
        forall j | 0 <= j < i + 1 ensures evs[j].Raise? {
          if j > 0 { assert evs[j] == evs[1..][j - 1]; }
        }
      }
    }
  }
}

=== FILE: properties.dfy ===
/** What `find_syntax_versions` returns, stated over whole trees. */
module Properties {
  import opened Versions
  import opened Syntax
  import opened Compat
  import opened Events

  /** A module whose one statement is the expression `e`. */
  function ModuleOf(e: Node): (root: Node) {
    Node(Module, [Node(Other, [e])])
  }

  /** `k` f-strings, each the only replacement field of the one around it;
      the innermost holds `innermost` as its parts. */
  function FStringTower(k: nat, innermost: seq<Node>): (tower: Node)
    requires k >= 1
    decreases k
  {
    if k == 1 then JoinedStr(innermost)
    else JoinedStr([FormattedValue(FStringTower(k - 1, innermost), -1, None)])
  }

  /** Visiting a one-element list is visiting its element. */
  lemma VisitAllSingleton(n: Node, st: State)
    ensures VisitAll([n], st) == Visit(n, st)
  {
    assert [n][1..] == [];
  }

  /** Raising one floor through `RaiseAll` is `SetMinimum`. */
  lemma RaiseOne(st: State, v: Version)
    ensures RaiseAll(st, [v]) == SetMinimum(st, v)
  {
    assert [v][1..] == [];
  }

  /** Checking a one-expression module is visiting the expression from the
      initial state. */
  lemma DetectModuleOf(e: Node, ceiling: Version)
    ensures Detect(ModuleOf(e), ceiling) == Report(Visit(e, Initial(ceiling)))
  {
    var st := Initial(ceiling);
    assert RaiseAll(st, []) == st;
    VisitAllSingleton(e, st);
    VisitAllSingleton(Node(Other, [e]), st);
  }

  // ---------------------------------------------------------------------
  // The result in closed form

  /** When no exact version is met, the floor is the greatest of (2, 7) and
      every floor raised by a node the walk visits, and the ceiling is the
      greatest of the initial ceiling and those same floors. */
  lemma DetectUnpinned(root: Node, ceiling: Version)
    requires IsModule(root)
    requires NoPin(Trace(root, 0))
    ensures Detect(root, ceiling).Found?
    ensures IsGreatest(Detect(root, ceiling).low, {V2_7} + Raised(Trace(root, 0)))
    ensures IsGreatest(Detect(root, ceiling).high, {ceiling} + Raised(Trace(root, 0)))
  {
    VisitIsFold(root, Initial(ceiling));
    FoldUnpinned(Trace(root, 0), Initial(ceiling));
  }

  /** When the walk meets an exact version, the result is that version twice,
      whatever was raised before it and whatever follows it. */
  lemma DetectPinned(root: Node, ceiling: Version, i: nat)
    requires IsModule(root)
    requires FirstPinAt(Trace(root, 0), i)
    ensures Detect(root, ceiling) == Found(Trace(root, 0)[i].exact, Trace(root, 0)[i].exact)
  {
    VisitIsFold(root, Initial(ceiling));
    FoldFirstPin(Trace(root, 0), Initial(ceiling), i);
  }

  // ---------------------------------------------------------------------
  // Trees without version-specific syntax

  /** A plain tree fires no rule. */
  lemma {:induction false} PlainTraceIsEmpty(n: Node, depth: nat)
    requires Plain(n)
    ensures Trace(n, depth) == []
    decreases n
  {
    match n
    case Node(_, children) =>
      assert VisitedChildren(n) == children;
      PlainTraceAllIsEmpty(children, depth);
    case FormattedValue(value, _, _) =>
      assert Plain(VisitedChildren(n)[0]);
      PlainTraceIsEmpty(value, depth);
    case Arg(_) =>
  }

  /** `PlainTraceIsEmpty` for a sequence of siblings. */
  lemma {:induction false} PlainTraceAllIsEmpty(ns: seq<Node>, depth: nat)
    requires forall i :: 0 <= i < |ns| ==> Plain(ns[i])
    ensures TraceAll(ns, depth) == []
    decreases ns
  {
    if ns != [] {
      PlainTraceIsEmpty(ns[0], depth);
      PlainTraceAllIsEmpty(ns[1..], depth);
    }
  }

  /** Visiting plain siblings changes nothing. */
  lemma PlainVisitAllKeepsState(ns: seq<Node>, st: State)
    requires forall i :: 0 <= i < |ns| ==> Plain(ns[i])
    ensures VisitAll(ns, st) == Continue(st)
  {
    VisitAllIsFold(ns, st);
    PlainTraceAllIsEmpty(ns, st.depth);
  }

  /** Literals fire no rule while fewer than four f-strings are open, so a
      plain tree with literals in it fires no rule there either. */
  lemma {:induction false} PlainWithLiteralsTraceIsEmpty(n: Node, depth: nat)
    requires PlainWithLiterals(n)
    requires depth < MaxFStringNesting
    ensures Trace(n, depth) == []
    decreases n
  {
    match n
    case Node(_, children) =>
      assert VisitedChildren(n) == children;
      PlainWithLiteralsTraceAllIsEmpty(children, depth);
    case FormattedValue(value, _, _) =>
      assert PlainWithLiterals(VisitedChildren(n)[0]);
      PlainWithLiteralsTraceIsEmpty(value, depth);
    case Str =>
    case Bytes =>
    case Arg(_) =>
  }

  /** `PlainWithLiteralsTraceIsEmpty` for a sequence of siblings. */
  lemma {:induction false} PlainWithLiteralsTraceAllIsEmpty(ns: seq<Node>, depth: nat)
    requires forall i :: 0 <= i < |ns| ==> PlainWithLiterals(ns[i])
    requires depth < MaxFStringNesting
    ensures TraceAll(ns, depth) == []
    decreases ns
  {
    if ns != [] {
      PlainWithLiteralsTraceIsEmpty(ns[0], depth);
      PlainWithLiteralsTraceAllIsEmpty(ns[1..], depth);
    }
  }

  /** A module with no version-specific syntax gets `((2, 7), ceiling)`,
      whatever string and bytes literals (docstrings, say) it holds outside
      f-strings. */
  lemma DetectPlain(root: Node, ceiling: Version)
    requires IsModule(root) && PlainWithLiterals(root)
    ensures Detect(root, ceiling) == Found(V2_7, ceiling)
  {
    VisitIsFold(root, Initial(ceiling));
    PlainWithLiteralsTraceIsEmpty(root, 0);
  }

  // ---------------------------------------------------------------------
  // Exact versions

  /** Every exact version in the list is 3.12. */
  ghost predicate OnlyPins312(evs: seq<Event>) {
    forall i :: 0 <= i < |evs| && evs[i].Pin? ==> evs[i].exact == V3_12
  }

  /** Without a reachable `Repr`, the only exact version the walk can meet is
      3.12: type parameters and the f-string nesting rules. */
  lemma {:induction false} NoReprPinsOnly312(n: Node, depth: nat)
    requires !ReachesRepr(n)
    ensures OnlyPins312(Trace(n, depth))
    decreases n
  {
    match n
    case Node(kind, children) =>
      assert OnlyPins312(Own(n, depth));
      assert VisitedChildren(n) == children;
      NoReprPinsOnly312All(children, depth);
    case JoinedStr(values) =>
      assert VisitedChildren(n) == values;
      NoReprPinsOnly312All(values, depth + 1);
    case FormattedValue(value, _, _) =>
      assert !ReachesRepr(VisitedChildren(n)[0]);
      NoReprPinsOnly312(value, depth);
    case Str =>
    case Bytes =>
    case Arg(_) =>
  }

  /** `NoReprPinsOnly312` for a sequence of siblings. */
  lemma {:induction false} NoReprPinsOnly312All(ns: seq<Node>, depth: nat)
    requires forall i :: 0 <= i < |ns| ==> !ReachesRepr(ns[i])
    ensures OnlyPins312(TraceAll(ns, depth))
    decreases ns
  {
    if ns != [] {
      NoReprPinsOnly312(ns[0], depth);
      NoReprPinsOnly312All(ns[1..], depth);
    }
  }

  /** A pin in either part of a concatenation is a pin in the whole. */
  lemma PinInConcat(a: seq<Event>, b: seq<Event>)
    requires !NoPin(a) || !NoPin(b)
    ensures !NoPin(a + b)
  {
    if !NoPin(a) {
      var k :| 0 <= k < |a| && !a[k].Raise?;
      assert (a + b)[k] == a[k];
    } else {
      var k :| 0 <= k < |b| && !b[k].Raise?;
      assert (a + b)[|a| + k] == b[k];
    }
  }

  /** A pin in one sibling's trace is a pin in the siblings' trace. */
  lemma {:induction false} PinInTraceAll(ns: seq<Node>, depth: nat, i: nat)
    requires i < |ns| && !NoPin(Trace(ns[i], depth))
    ensures !NoPin(TraceAll(ns, depth))
    decreases i
  {
    if i > 0 {
      PinInTraceAll(ns[1..], depth, i - 1);
    }
    PinInConcat(Trace(ns[0], depth), TraceAll(ns[1..], depth));
  }

  /** A reachable type parameter always brings an exact version into the
      trace: its own, or one met on the way to it. */
  lemma {:induction false} TypeParamPins(n: Node, depth: nat)
    requires ReachesTypeParam(n)
    ensures !NoPin(Trace(n, depth))
    decreases n
  {
    var own := Own(n, depth);
    match n
    case Node(kind, children) =>
      if ExactVersion(kind).Some? {
        assert own[0].Pin?;
        PinInConcat(own, TraceAll(children, depth));
      } else {
        assert VisitedChildren(n) == children;
        var i :| 0 <= i < |children| && ReachesTypeParam(children[i]);
        TypeParamPins(children[i], depth);
        PinInTraceAll(children, depth, i);
        PinInConcat(own, TraceAll(children, depth));
      }
    case JoinedStr(values) =>
      if depth + 1 > MaxFStringNesting {
        assert own[1].Pin?;
      } else {
        var i :| 0 <= i < |values| && ReachesTypeParam(values[i]);
        TypeParamPins(values[i], depth + 1);
        PinInTraceAll(values, depth + 1, i);
      }
      PinInConcat(own, TraceAll(values, depth + 1));
    case FormattedValue(value, _, _) =>
      assert VisitedChildren(n) == [value];
      TypeParamPins(value, depth);
      PinInConcat(own, Trace(value, depth));
    case Str => assert false;
    case Bytes => assert false;
    case Arg(_) => assert false;
  }

  /** A module that reaches a type parameter and no `Repr` is exactly 3.12,
      whatever floors it raises. */
  lemma DetectTypeParam(root: Node, ceiling: Version)
    requires IsModule(root)
    requires ReachesTypeParam(root) && !ReachesRepr(root)
    ensures Detect(root, ceiling) == Found(V3_12, V3_12)
  {
    TypeParamPins(root, 0);
    NoReprPinsOnly312(root, 0);
    FirstPinExists(Trace(root, 0));
    var i: nat :| FirstPinAt(Trace(root, 0), i);
    DetectPinned(root, ceiling, i);
  }

  /** A module holding only a backquote conversion is exactly 2.7, whatever
      is inside the backquotes. */
  lemma DetectLoneRepr(inner: seq<Node>, ceiling: Version)
    ensures Detect(ModuleOf(Node(Repr, inner)), ceiling) == Found(V2_7, V2_7)
  {
    DetectModuleOf(Node(Repr, inner), ceiling);
  }

  // ---------------------------------------------------------------------
  // f-string nesting

  /** The nesting rules on their own: a tower of `k` f-strings entered at
      depth `d` pins 3.12 as soon as `d + k` passes the limit; below the
      limit the innermost parts are visited at depth `d + k` with the floor
      raised to 3.6, and the counter comes back to `d`. */
  lemma {:induction false} TowerVisit(k: nat, innermost: seq<Node>, st: State)
    requires k >= 1
    ensures st.depth + k > MaxFStringNesting ==>
              Visit(FStringTower(k, innermost), st) == Pinned(V3_12)
    ensures st.depth + k <= MaxFStringNesting ==>
              Visit(FStringTower(k, innermost), st)
              == WithDepth(VisitAll(innermost, SetMinimum(st, V3_6).(depth := st.depth + k)), st.depth)
    decreases k
  {
    if k > 1 {
      var entered := SetMinimum(st, V3_6).(depth := st.depth + 1);
      var inner := FStringTower(k - 1, innermost);
      if st.depth + 1 <= MaxFStringNesting {
        TowerVisit(k - 1, innermost, entered);
        assert SetMinimum(entered, V3_6) == entered;
        assert VisitAll([FormattedValue(inner, -1, None)], entered) == Visit(inner, entered);
      }
    }
  }

  /** Five f-strings inside one another are exactly 3.12, whatever is inside. */
  lemma DetectTowerOfFive(k: nat, innermost: seq<Node>, ceiling: Version)
    requires k > MaxFStringNesting
    ensures Detect(ModuleOf(FStringTower(k, innermost)), ceiling) == Found(V3_12, V3_12)
  {
    TowerVisit(k, innermost, Initial(ceiling));
    DetectModuleOf(FStringTower(k, innermost), ceiling);
  }

  /** A string literal is new syntax only inside four nested f-strings: a
      tower of `k` f-strings around a plain string is exactly 3.12 when `k`
      is 4 or more, and otherwise needs only 3.6. */
  lemma DetectTowerAroundStr(k: nat, ceiling: Version)
    requires k >= 1
    ensures k >= MaxFStringNesting ==>
              Detect(ModuleOf(FStringTower(k, [Str])), ceiling) == Found(V3_12, V3_12)
    ensures k < MaxFStringNesting ==>
              Detect(ModuleOf(FStringTower(k, [Str])), ceiling) == Found(V3_6, Max(ceiling, V3_6))
  {
    var st := Initial(ceiling);
    var inside := SetMinimum(st, V3_6).(depth := k);
    var tower := FStringTower(k, [Str]);
    TowerVisit(k, [Str], st);
    DetectModuleOf(tower, ceiling);
    if k <= MaxFStringNesting {
      VisitAllSingleton(Str, inside);
    }
    if k >= MaxFStringNesting {
      assert Visit(tower, st) == Pinned(V3_12);
    } else {
      assert Visit(tower, st) == Continue(SetMinimum(st, V3_6));
    }
  }

  /** Up to four nested f-strings around plain parts need only 3.6. */
  lemma DetectShallowTower(k: nat, innermost: seq<Node>, ceiling: Version)
    requires 1 <= k <= MaxFStringNesting
    requires forall i :: 0 <= i < |innermost| ==> Plain(innermost[i])
    ensures Detect(ModuleOf(FStringTower(k, innermost)), ceiling) == Found(V3_6, Max(ceiling, V3_6))
  {
    var st := Initial(ceiling);
    TowerVisit(k, innermost, st);
    PlainVisitAllKeepsState(innermost, SetMinimum(st, V3_6).(depth := k));
    DetectModuleOf(FStringTower(k, innermost), ceiling);
  }

  // ---------------------------------------------------------------------
  // Fields the walk skips

  /** Trees that agree on every visited field are visited alike. */
  lemma {:induction false} VisitIgnoresUnvisited(a: Node, b: Node, st: State)
    requires AgreeOnVisited(a, b)
    ensures Visit(a, st) == Visit(b, st)
    decreases a
  {
    match a
    case Node(_, children) => VisitAllIgnoresUnvisited(children, b.children, RaiseAll(st, Floors(a.kind)));
    case JoinedStr(values) =>
      VisitAllIgnoresUnvisited(values, b.values, SetMinimum(st, V3_6).(depth := st.depth + 1));
    case FormattedValue(value, _, _) => VisitIgnoresUnvisited(value, b.value, st);
    case Str =>
    case Bytes =>
    case Arg(_) =>
  }

  /** `VisitIgnoresUnvisited` for a sequence of siblings. */
  lemma {:induction false} VisitAllIgnoresUnvisited(xs: seq<Node>, ys: seq<Node>, st: State)
    requires AllAgreeOnVisited(xs, ys)
    ensures VisitAll(xs, st) == VisitAll(ys, st)
    decreases xs
  {
    if xs != [] {
      VisitIgnoresUnvisited(xs[0], ys[0], st);
      if Visit(xs[0], st).Continue? {
        VisitAllIgnoresUnvisited(xs[1..], ys[1..], Visit(xs[0], st).state);
      }
    }
  }

  /** Format specifiers, and what an annotation on a single parameter
      contains, never change the result. */
  lemma DetectIgnoresUnvisited(a: Node, b: Node, ceiling: Version)
    requires AgreeOnVisited(a, b)
    ensures Detect(a, ceiling) == Detect(b, ceiling)
  {
    VisitIgnoresUnvisited(a, b, Initial(ceiling));
  }

  // ---------------------------------------------------------------------
  // Single rules

  /** The version a node of each generic kind needs, read off the grammar
      history. This is a deliberate second copy of the rule table, written
      as one version per kind rather than as the handler's sequence of
      `set_minimum` calls; `FloorsMeetRequiredFloor` checks that the two
      agree. */
  function RequiredFloor(kind: Kind): (v: Version) {
    match kind
    case NamedExpr => V3_8
    case MatMult => V3_5
    case AnnAssign => V3_6
    case Arguments(posOnly, kwOnly, varargAnn, kwargAnn) =>
      if posOnly then V3_8 else if kwOnly || varargAnn || kwargAnn then V3_0 else V2_7
    case YieldFrom => V3_3
    case Nonlocal => V3_0
    case AsyncFunctionDef => V3_5
    case Await => V3_5
    case AsyncFor => V3_5
    case AsyncWith => V3_5
    case Match => V3_10
    case Comprehension(isAsync) => if isAsync then V3_6 else V2_7
    case TryStar => V3_11
    case _ => V2_7
  }

  /** Raising the floors of `a + b` is raising those of `a`, then of `b`. */
  lemma {:induction false} RaiseAllConcat(st: State, a: seq<Version>, b: seq<Version>)
    ensures RaiseAll(st, a + b) == RaiseAll(RaiseAll(st, a), b)
    decreases |a|
  {
    if a == [] {
      assert a + b == b;
    } else {
      assert (a + b)[0] == a[0];
      assert (a + b)[1..] == a[1..] + b;
      RaiseAllConcat(SetMinimum(st, a[0]), a[1..], b);
    }
  }

  /** Raising at most one floor. */
  lemma RaiseAtMostOne(st: State, test: bool, v: Version)
    ensures RaiseAll(st, if test then [v] else []) == if test then SetMinimum(st, v) else st
  {
    if test { RaiseOne(st, v); }
  }

  /** `FloorsFromInitial` for a parameter list: its up to four floors, in
      the order the handler raises them. */
  lemma ArgumentsFromInitial(p: bool, k: bool, va: bool, ka: bool, st: State)
    requires st.min == V2_7 && Le(V2_7, st.max)
    ensures RaiseAll(st, Floors(Arguments(p, k, va, ka)))
            == st.(min := RequiredFloor(Arguments(p, k, va, ka)),
                   max := Max(st.max, RequiredFloor(Arguments(p, k, va, ka))))
  {
    var a := if p then [V3_8] else [];
    var b := if k then [V3_0] else [];
    var c := if va then [V3_0] else [];
    var d := if ka then [V3_0] else [];
    assert Floors(Arguments(p, k, va, ka)) == a + b + c + d;
    RaiseAllConcat(st, a + b + c, d);
    RaiseAllConcat(st, a + b, c);
    RaiseAllConcat(st, a, b);
    RaiseAtMostOne(st, p, V3_8);
    var s1 := RaiseAll(st, a);
    RaiseAtMostOne(s1, k, V3_0);
    var s2 := RaiseAll(s1, b);
    RaiseAtMostOne(s2, va, V3_0);
    var s3 := RaiseAll(s2, c);
    RaiseAtMostOne(s3, ka, V3_0);
  }

  /** From the initial state, a generic handler's floors leave the floor at
      the kind's required version, and the ceiling at least there. */
  lemma FloorsFromInitial(kind: Kind, ceiling: Version)
    requires ExactVersion(kind).None?
    requires Le(V2_7, ceiling)
    ensures RaiseAll(Initial(ceiling), Floors(kind))
            == State(RequiredFloor(kind), Max(ceiling, RequiredFloor(kind)), 0)
  {
    var st := Initial(ceiling);
    match kind
    case Arguments(p, k, va, ka) => ArgumentsFromInitial(p, k, va, ka, st);
    case Comprehension(isAsync) => RaiseAtMostOne(st, isAsync, V3_6);
    case Module => assert RaiseAll(st, []) == st;
    case Other => assert RaiseAll(st, []) == st;
    case NamedExpr => RaiseOne(st, V3_8);
    case MatMult => RaiseOne(st, V3_5);
    case AnnAssign => RaiseOne(st, V3_6);
    case YieldFrom => RaiseOne(st, V3_3);
    case Nonlocal => RaiseOne(st, V3_0);
    case AsyncFunctionDef => RaiseOne(st, V3_5);
    case Await => RaiseOne(st, V3_5);
    case AsyncFor => RaiseOne(st, V3_5);
    case AsyncWith => RaiseOne(st, V3_5);
    case Match => RaiseOne(st, V3_10);
    case TryStar => RaiseOne(st, V3_11);
    case Repr => assert false;
    case TypeVar => assert false;
    case TypeVarTuple => assert false;
    case ParamSpec => assert false;
  }

  /** In any state whose bounds are at least 2.7 (every state the walk
      reaches when the initial ceiling is at least 2.7), a generic handler's
      floors together act as one `set_minimum` of the kind's required
      version. */
  lemma FloorsMeetRequiredFloor(kind: Kind, st: State)
    requires ExactVersion(kind).None?
    requires Le(V2_7, st.min) && Le(V2_7, st.max)
    ensures RaiseAll(st, Floors(kind)) == SetMinimum(st, RequiredFloor(kind))
  {
    var floors := Floors(kind);
    var req := RequiredFloor(kind);
    FloorsFromInitial(kind, V2_7);
    assert IsGreatest(req, {V2_7} + Elems(floors));
    var r := RaiseAll(st, floors);
    var m := SetMinimum(st, req);
    forall x | x in Elems(floors) ensures Le(x, m.min) && Le(x, m.max) {
      LeIsTotalOrder(x, req, m.min);
      LeIsTotalOrder(x, req, m.max);
    }
    assert req in Elems(floors) || req == V2_7;
    LeIsTotalOrder(V2_7, st.min, st.max);
    assert IsGreatest(m.min, {st.min} + Elems(floors));
    assert IsGreatest(m.max, {st.max} + Elems(floors));
    GreatestIsUnique(r.min, m.min, {st.min} + Elems(floors));
    GreatestIsUnique(r.max, m.max, {st.max} + Elems(floors));
  }

  /** `FloorsMeetRequiredFloor` for a parameter list: positional-only
      parameters need 3.8, otherwise keyword-only parameters or an old-style
      vararg or kwarg annotation need 3.0, whatever was raised before. */
  lemma ArgumentsMeetRequiredFloor(p: bool, k: bool, va: bool, ka: bool, st: State)
    requires Le(V2_7, st.min) && Le(V2_7, st.max)
    ensures RaiseAll(st, Floors(Arguments(p, k, va, ka)))
            == SetMinimum(st, if p then V3_8 else if k || va || ka then V3_0 else V2_7)
  {
    FloorsMeetRequiredFloor(Arguments(p, k, va, ka), st);
  }

  /** A module holding one node of a generic kind, with nothing
      version-specific below it, gets exactly that kind's required floor. */
  lemma DetectSingleNode(kind: Kind, children: seq<Node>, ceiling: Version)
    requires ExactVersion(kind).None?
    requires Le(V2_7, ceiling)
    requires forall i :: 0 <= i < |children| ==> Plain(children[i])
    ensures Detect(Node(Module, [Node(kind, children)]), ceiling)
            == Found(RequiredFloor(kind), Max(ceiling, RequiredFloor(kind)))
  {
    var st := Initial(ceiling);
    var raised := RaiseAll(st, Floors(kind));
    PlainVisitAllKeepsState(children, raised);
    assert Visit(Node(kind, children), st) == Continue(raised);
    assert RaiseAll(st, []) == st;
    VisitAllSingleton(Node(kind, children), st);
    FloorsFromInitial(kind, ceiling);
  }

  /** A plain or bytes literal pins 3.12 exactly when four f-strings are
      open, and otherwise changes nothing. */
  lemma LiteralRule(lit: Node, st: State)
    requires lit == Str || lit == Bytes
    ensures Visit(lit, st).Pinned? <==> st.depth >= MaxFStringNesting
    ensures Visit(lit, st).Pinned? ==> Visit(lit, st).version == V3_12
    ensures Visit(lit, st).Continue? ==> Visit(lit, st).state == st
  {
  }

  /** An f-string raises the floor to 3.6 and restores the nesting counter;
      opened inside four others it is exactly 3.12. */
  lemma JoinedStrRule(values: seq<Node>, st: State)
    ensures st.depth >= MaxFStringNesting ==> Visit(JoinedStr(values), st) == Pinned(V3_12)
    ensures Visit(JoinedStr(values), st).Continue? ==>
              Le(V3_6, Visit(JoinedStr(values), st).state.min)
              && Visit(JoinedStr(values), st).state.depth == st.depth
  {
    if st.depth < MaxFStringNesting {
      VisitAllGrows(values, SetMinimum(st, V3_6).(depth := st.depth + 1));
    }
  }

  /** An annotated parameter needs 3.0 and the walk does not look below it,
      so an exact version inside the annotation is never met. */
  lemma ArgRule(annotation: Node, st: State)
    ensures Visit(Arg(Some(annotation)), st) == Continue(SetMinimum(st, V3_0))
    ensures Visit(Arg(None), st) == Continue(st)
  {
  }

  /** A module holding an async function whose body is a `match` statement
      needs 3.10, the later of the two floors. */
  lemma DetectAsyncMatch(body: seq<Node>, ceiling: Version)
    requires forall i :: 0 <= i < |body| ==> Plain(body[i])
    ensures Detect(Node(Module, [Node(AsyncFunctionDef, [Node(Match, body)])]), ceiling)
            == Found(V3_10, Max(ceiling, V3_10))
  {
    var st0 := Initial(ceiling);
    var st1 := SetMinimum(st0, V3_5);
    var st2 := SetMinimum(st1, V3_10);
    var matchStmt := Node(Match, body);
    var asyncDef := Node(AsyncFunctionDef, [matchStmt]);
    RaiseOne(st0, V3_5);
    RaiseOne(st1, V3_10);
    PlainVisitAllKeepsState(body, st2);
    assert Visit(matchStmt, st1) == Continue(st2);
    VisitAllSingleton(matchStmt, st1);
    assert Visit(asyncDef, st0) == Continue(st2);
    assert RaiseAll(st0, []) == st0;
    VisitAllSingleton(asyncDef, st0);
    assert st2 == State(V3_10, Max(ceiling, V3_10), 0);
  }
}

=== FILE: syntax.dfy ===
/** The part of Python's abstract syntax tree that the compatibility check
    looks at.

    Most node classes are handled the same way: the handler (if there is one)
    raises a floor or fixes an exact version, then visits every node-valued
    field in declaration order. Those are `Node(kind, children)`, where
    `children` lists the node-valued fields in the order the class declares
    them (lists flattened), which is the order a generic visit walks them in.
    Five classes have constructors of their own: the handlers of
    `FormattedValue`, `Str`, `Bytes` and `Arg` decide differently which fields
    to visit, and `JoinedStr` keeps the f-string nesting counter. Scalar fields the check never reads
    (names, constant values) are left out. */
module Syntax {

  datatype Option<T> = None | Some(value: T)

  /** The node classes with a generic-visit handler, and `Other` for every
      class without a handler. */
  datatype Kind =
    | Module
    | NamedExpr
    | MatMult
    | AnnAssign
      /** A parameter list. The four flags are the truth values of its
          `posonlyargs`, `kwonlyargs`, `varargannotation` and `kwargannotation`
          attributes (false when the running grammar lacks the attribute). */
    | Arguments(hasPosOnlyArgs: bool, hasKwOnlyArgs: bool,
                hasVarargAnnotation: bool, hasKwargAnnotation: bool)
    | YieldFrom
      /** The node `visit_nonlocal` handles. The handler's name is lower-case,
          so by-name dispatch alone would not reach it for the `Nonlocal`
          class; the kind assumes that it does. */
    | Nonlocal
    | AsyncFunctionDef
    | Await
    | AsyncFor
    | AsyncWith
    | Match
      /** Python 2 backquote conversion `` `x` ``. */
    | Repr
    | Comprehension(isAsync: bool)
    | TryStar
    | TypeVar
    | TypeVarTuple
    | ParamSpec
    | Other

  datatype Node =
    | Node(kind: Kind, children: seq<Node>)
      /** f-string: its `values` are the literal parts and `FormattedValue`s. */
    | JoinedStr(values: seq<Node>)
      /** One `{value!conversion:format_spec}` field of an f-string. */
    | FormattedValue(value: Node, conversion: int, formatSpec: Option<Node>)
    | Str
    | Bytes
      /** A single parameter; its only node-valued field is the annotation. */
    | Arg(annotation: Option<Node>)

  predicate IsModule(n: Node) {
    n.Node? && n.kind == Module
  }

  /** The subtrees the walk descends into after a node's own handler has run:
      a `FormattedValue` skips its format specifier, and an `Arg`, like the
      literals, descends into nothing. */
  function VisitedChildren(n: Node): (ns: seq<Node>) {
    match n
    case Node(_, children) => children
    case JoinedStr(values) => values
    case FormattedValue(value, _, _) => [value]
    case Str => []
    case Bytes => []
    case Arg(_) => []
  }

  /** A node class whose handler fixes the exact version 3.12. */
  predicate IsTypeParam(n: Node) {
    n.Node? && (n.kind == TypeVar || n.kind == TypeVarTuple || n.kind == ParamSpec)
  }

  /** A node whose own handler never raises a floor or fixes a version,
      whatever the state it is visited in. */
  predicate Quiet(n: Node) {
    match n
    case Node(kind, _) =>
      || kind == Module
      || kind == Other
      || kind == Arguments(false, false, false, false)
      || kind == Comprehension(false)
    case FormattedValue(_, _, _) => true
    case Arg(annotation) => annotation.None?
    case _ => false
  }

  /** Every node the walk reaches in `n` is quiet. */
  predicate Plain(n: Node) {
    Quiet(n) && forall i :: 0 <= i < |VisitedChildren(n)| ==> Plain(VisitedChildren(n)[i])
  }

  /** Every node the walk reaches in `n` is quiet or a plain or bytes
      literal: code with no version-specific syntax, where literals may
      appear as long as no f-string encloses them. */
  predicate PlainWithLiterals(n: Node) {
    && (Quiet(n) || n.Str? || n.Bytes?)
    && forall i :: 0 <= i < |VisitedChildren(n)| ==> PlainWithLiterals(VisitedChildren(n)[i])
  }

  /** The walk, ignoring where it stops early, reaches a `Repr` node in `n`. */
  predicate ReachesRepr(n: Node) {
    (n.Node? && n.kind == Repr)
    || exists i :: 0 <= i < |VisitedChildren(n)| && ReachesRepr(VisitedChildren(n)[i])
  }

  /** The walk, ignoring where it stops early, reaches a type-parameter node
      in `n`. */
  predicate ReachesTypeParam(n: Node) {
    IsTypeParam(n)
    || exists i :: 0 <= i < |VisitedChildren(n)| && ReachesTypeParam(VisitedChildren(n)[i])
  }

  /** `a` and `b` differ at most in fields the walk never looks at: format
      specifiers, the annotations below an `Arg` (only whether one is
      present matters), and the scalar fields the model leaves out. */
  predicate AgreeOnVisited(a: Node, b: Node)
    decreases a
  {
    match a
    case Node(kind, children) => b.Node? && b.kind == kind && AllAgreeOnVisited(children, b.children)
    case JoinedStr(values) => b.JoinedStr? && AllAgreeOnVisited(values, b.values)
    case FormattedValue(value, _, _) => b.FormattedValue? && AgreeOnVisited(value, b.value)
    case Str => b.Str?
    case Bytes => b.Bytes?
    case Arg(annotation) => b.Arg? && annotation.Some? == b.annotation.Some?
  }

  /** `AgreeOnVisited`, position by position. */
  predicate AllAgreeOnVisited(xs: seq<Node>, ys: seq<Node>)
    decreases xs
  {
    |xs| == |ys| && forall i :: 0 <= i < |xs| ==> AgreeOnVisited(xs[i], ys[i])
  }
}

=== FILE: versions.dfy ===
/** Language versions as (major, minor) pairs, ordered the way Python orders
    tuples: lexicographically, major first. */
module Versions {

  datatype Version = Version(major: nat, minor: nat)

  /** Tuple comparison `a <= b`. */
  predicate Le(a: Version, b: Version) {
    a.major < b.major || (a.major == b.major && a.minor <= b.minor)
  }

  /** Tuple comparison `a < b`. */
  predicate Lt(a: Version, b: Version) {
    a.major < b.major || (a.major == b.major && a.minor < b.minor)
  }

  /** The larger of two versions. */
  function Max(a: Version, b: Version): (m: Version)
    ensures Le(a, m) && Le(b, m)
    ensures m == a || m == b
  {
    if Le(a, b) then b else a
  }

  /** `m` is a member of `s` that no member of `s` exceeds. */
  ghost predicate IsGreatest(m: Version, s: set<Version>) {
    m in s && forall x :: x in s ==> Le(x, m)
  }

  /** The order is total, reflexive, antisymmetric and transitive, and `Lt` is
      its strict part: together these make `Max` and `IsGreatest` well defined. */
  lemma LeIsTotalOrder(a: Version, b: Version, c: Version)
    ensures Le(a, a)
    ensures Le(a, b) || Le(b, a)
    ensures Le(a, b) && Le(b, a) ==> a == b
    ensures Le(a, b) && Le(b, c) ==> Le(a, c)
    ensures Lt(a, b) <==> Le(a, b) && a != b
  {
  }

  /** A set has at most one greatest element. */
  lemma GreatestIsUnique(m: Version, m': Version, s: set<Version>)
    requires IsGreatest(m, s) && IsGreatest(m', s)
    ensures m == m'
  {
    LeIsTotalOrder(m, m', m);
  }
}
